=== FILE: README.md ===
# Identity-scoped STUN resolution cache — a Dafny model

This project models the caching core of the STUN IP resolver in two generations.

- **conexia**: `STUNClient.get_stun_info` derives the caller's identity. The identity is an authenticated user's id, or else a machine UUID that is persisted once and read back afterwards. The client then asks the cache backend whether it holds any key, and only then looks the identity up. A fresh hit is returned unchanged. On a miss the client makes exactly one external STUN call, writes `{user_id, data{ip, port, nat_type}, timestamp}` under the identity and returns it. Any failure becomes `STUNResolutionError`.
- **stun_ip_resolver (legacy)**: an LRU-bounded map keyed by IP. Its `get_stun_info` returns the record under the *first* cached key, whoever asks. Only an empty cache leads to the external call, and the result is stored under the IP the call reports.

Everything is pure. The clock is an integer `now`. `uuid.uuid4()` is a parameter `newUuid`, `random.randint` is a parameter `pick`, and the STUN library is an oracle `resolve: StunCall -> StunReply`. Each orchestration step returns a `Step` holding:

- the result or error;
- the state afterwards (the cache, plus the machine-identity file for conexia);
- the list of external calls it made.

So "no external call" means `queries == []`, and "exactly one" means `queries == [CallFor(client)]` for conexia and `queries == [CallAsWritten(client)]` for the legacy client.

Files (one module each):

- `common.dfy`: `Common`, the results, errors, records and the `STUNResolutionError` wrapping.
- `stun.dfy`: `Stun`, the library's parameter list and positional binding, the four-argument call conexia makes, and the reply oracle.
- `identity.dfy`: `Identity`, conexia/utils.py including Python's `str.strip()`.
- `ttl_cache.dfy`: `TtlCache`, the backend-independent conexia cache contract.
- `conexia.dfy`: `Conexia`, conexia/core.py.
- `lru.dfy`: `Lru`, the LRU map behind the legacy cache. It keeps both the `keys()` iteration order and the recency order.
- `legacy_cache.dfy`: `LegacyCache`, stun_ip_resolver/cache.py.
- `legacy.dfy`: `Legacy`, stun_ip_resolver/core.py.
- `contrast.dfy`: `Contrast`, exact-identity lookup versus scan-all-keys lookup.

Notes on sources:

- conexia/cache.py is outside this model. The conexia cache is therefore one abstract map from identity to (record, time stored), with a time-to-live. Its behaviour is the one tests/test_cache.py and tests/test_core.py fix. Freshness counts from the moment of storing, as tests/test_core.py:24-29 needs for the memory backend. An unknown backend name is modelled as a `ConfigurationError`.
- `DEFAULT_STUN_SERVERS` is imported from conexia/utils.py by conexia/core.py:5, but conexia/utils.py does not define it. The list is a parameter `defaults`.
- The LRU map follows the semantics of the `LRUCache` class the legacy cache instantiates:
  - `get` makes a found key the most recently used;
  - writing a new key into a full map first pops least recently used keys;
  - a capacity below one refuses every item with `ValueError("value too large")`;
  - `keys()` iterates in first-insertion order;
  - `clear()` pops until empty.
- The two lookups differ. conexia looks up exactly the caller's identity, while the legacy client scans all keys and serves the first record to everyone. The model keeps both as written and states the difference in `Contrast`. The legacy client's three-argument library call is also kept as written (see "## Findings").

## Model

| member | source | states |
|---|---|---|
| Common.WrapResolution | conexia/core.py:72-73 | the error raised is a `STUNResolutionError` whose message starts with "Failed to retrieve STUN Info: " and ends with the whole original message |
| Common.WrapResolutionInjective | stun_ip_resolver/core.py:37-38 | different causes give different error messages, so the wrapping keeps the cause recoverable |
| Stun.Bind | conexia/core.py:58-60 | positional arguments fill the library's parameters in order and the rest keep their defaults (0.0.0.0, 54320, no host, 3478) |
| Identity.Strip | conexia/utils.py:13 | `strip()` leaves no whitespace at either end and never lengthens the text |
| Identity.StripCutsOnlyMargins | conexia/utils.py:13 | `strip()` returns a contiguous slice of the text, and everything it cuts from either end is whitespace |
| Identity.StripIdempotent | conexia/utils.py:13 | stripping twice is stripping once |
| Identity.UuidSurvivesStrip | conexia/utils.py:15-17 | a generated UUID text read back and stripped is the same UUID |
| Identity.MachineUuid | conexia/utils.py:9-19 | if the file exists, the identity is its stripped content and nothing is written; if it is absent, the new UUID is persisted and returned |
| Identity.MachineUuidNeverRewrites | conexia/utils.py:11-13 | once the file exists it is never written again, and the result does not depend on the UUID generator |
| Identity.MachineUuidIdempotent | conexia/utils.py:9-19 | create once, read thereafter: a second call returns the first call's identity and leaves the file as the first call left it |
| Identity.UserId | conexia/utils.py:22-31 | an authenticated user's id is the identity and the file is untouched; a request whose `user` is `None` raises `AttributeError`, and only then; otherwise, including no request, no `user` attribute or an unauthenticated user, the identity is the machine UUID |
| Identity.UserIdIdempotent | conexia/utils.py:22-31 | after a successful derivation, deriving the same request's identity again gives the same identity and the same file |
| TtlCache.ParseBackend | conexia/core.py:14 | the four backend names are accepted and read back by name; any other name is a configuration error |
| TtlCache.HasAnyKeys | conexia/core.py:17-34 | `_get_cached_ips()` is non-empty exactly when the backend holds at least one key, fresh or stale; when it is empty, no lookup can find anything |
| TtlCache.Empty | tests/test_cache.py:22 | a newly created cache answers every lookup with nothing |
| TtlCache.GetCachedInfo | tests/test_cache.py:24-36 | a lookup returns the stored record exactly when the key is present and less than `ttl` seconds old |
| TtlCache.CacheStunInfo | tests/test_cache.py:26 | a write stores `{user_id, data{ip, port, nat_type}, timestamp}` under `user_id` with the current time and keeps every other key |
| TtlCache.ClearCache | tests/test_cache.py:38-42 | clearing removes that key only |
| TtlCache.WritesKeepKeyedByUser | tests/test_core.py:24-29 | writes and clears keep every record under its own `user_id` |
| TtlCache.RoundTrip | tests/test_cache.py:24-29 | put then get within the time-to-live returns exactly the record written, `data.ip` included |
| TtlCache.FreshnessIgnoresTimestamp | tests/test_core.py:24-29 | freshness counts from storing, not from the caller's timestamp: an immediate read succeeds whatever timestamp was passed |
| TtlCache.Expiry | tests/test_cache.py:31-36 | once `ttl` seconds have passed since storing, the get returns nothing |
| TtlCache.ClearRemoves | tests/test_cache.py:38-42 | after `clear_cache(key)` that key reads as absent at every time, and other keys read as before |
| TtlCache.WriteReplacesOnlyItsKey | tests/test_cache.py:56-61 | writing one identity replaces its record, repeating the write is a no-op, and other identities read as before |
| TtlCache.TwoSecondScenario | tests/test_cache.py:94-98 | with ttl 2 and a write at time 0, a read at 1 returns 192.168.1.1 and a read at 3 returns nothing, for every backend kind |
| Conexia.NewClient | conexia/core.py:9-14 | an empty default list fails with ValueError, even when server and port are given; an unknown backend is a configuration error; a given server or port is kept, and whichever of them is absent comes from one and the same default entry |
| Conexia.DefaultConstruction | conexia/core.py:9-14 | with no arguments the client uses the file backend, a 300-second time-to-live and one default server with its port |
| Stun.ServerCall | conexia/core.py:58-60 | the four-argument call binds 0.0.0.0:54320 and queries the given server and port |
| Conexia.Lookup | conexia/core.py:47-73 | makes no external call exactly when the identity has a fresh record, and then returns that record unchanged; otherwise makes exactly one call to the configured server, and on success stores and returns `{user_id, data{ip, port, nat_type}, timestamp=now}`, or on failure returns the wrapped error and leaves the cache unchanged |
| Conexia.GetStunInfo | conexia/core.py:36-53 | the identity is derived first; if that raises, the wrapped error is returned with no call and nothing changed; otherwise its file change is kept whatever follows, a hit returns the record cached under that identity, and a freshly resolved record carries it as `user_id` |
| Conexia.EmptyBackendAlwaysQueries | conexia/core.py:48-49 | when the backend reports no keys, the external call is made whenever the identity can be derived |
| Conexia.ResultBelongsToCaller | conexia/core.py:45-53 | a successful result, hit or miss, carries the derived identity as `user_id` |
| Conexia.FailureCachesNothing | conexia/core.py:45-73 | a failed call leaves every identity's lookups unchanged, and its error ends with the cause: the `None`-user attribute error, or else the oracle's message |
| Conexia.MissIsStored | conexia/core.py:57-62 | after a successful miss, the identity's record reads back as the returned record for the whole time-to-live |
| Conexia.SecondCallHits | conexia/core.py:45-53 | when a call misses and the oracle answers, the next call for the same request within the time-to-live makes no external call and returns the same record |
| Conexia.UserIdOf | conexia/core.py:76-78 | returns the `user_id` of one full resolution, with the same state change and calls |
| Conexia.PublicIp | conexia/core.py:80-82 | returns the `data.ip` of one full resolution, with the same state change and calls |
| Conexia.PublicPort | conexia/core.py:84-86 | returns the `data.port` of one full resolution, with the same state change and calls |
| Conexia.NatType | conexia/core.py:88-90 | returns the `data.nat_type` of one full resolution, with the same state change and calls |
| Conexia.AccessorsShareOneResolution | conexia/core.py:76-90 | the four accessors called in turn within the time-to-live make one external call in total and report the fields of one record |
| Lru.Remove | stun_ip_resolver/cache.py:7 | removing a key from an order keeps all other keys, keeps distinctness, and, when the key was present once, cuts exactly its position out and keeps the rest in order |
| Lru.MoveToEnd | stun_ip_resolver/cache.py:7 | marking a key as most recently used puts it last, keeps the same set of keys, and leaves the other keys in their relative order |
| Lru.Get | stun_ip_resolver/cache.py:11 | returns the stored value exactly when the key is present and then makes it the most recently used; an absent key returns nothing and changes nothing |
| Lru.PopLru | stun_ip_resolver/cache.py:7 | evicting removes exactly the least recently used key, from the recency order and from the `keys()` order, and keeps every other value |
| Lru.MakeRoom | stun_ip_resolver/cache.py:7 | evicting until there is room leaves fewer than `maxSize` entries and only entries that were there before, unchanged; with room it evicts nothing; when full it leaves `maxSize - 1` entries and drops a prefix of the recency order, the least recently used keys |
| Lru.Put | stun_ip_resolver/cache.py:15 | capacity below one fails with "value too large"; otherwise the key holds the new value and is most recently used; overwriting keeps the `keys()` order and moves only that key to the end of the recency order; a new key with room evicts nothing and goes last in both orders; a new key into a full map evicts exactly the least recently used key and goes last in both orders |
| Lru.Insert | stun_ip_resolver/cache.py:15 | a new key is stored after evicting nothing when there is room and exactly the least recently used key when full, and it goes last in both orders |
| Lru.Clear | stun_ip_resolver/cache.py:23 | popping until empty leaves a map where every lookup finds nothing |
| Lru.NeverExceedsMaxSize | stun_ip_resolver/cache.py:6-7 | no sequence of gets, puts and clears takes the map above its capacity |
| Lru.PutThenGet | stun_ip_resolver/cache.py:9-19 | a put followed by a get of the same key returns the value put |
| Lru.PutEvictsLeastRecentlyUsed | stun_ip_resolver/cache.py:7 | inserting a new key into a full map evicts exactly the least recently used key and keeps every other entry |
| Lru.GetProtectsFromEviction | stun_ip_resolver/cache.py:11 | a key just read is not evicted by the next insertion while another key is present |
| LegacyCache.NewIpCache | stun_ip_resolver/cache.py:6-7 | a new cache is empty with the given capacity |
| LegacyCache.GetCachedInfo | stun_ip_resolver/cache.py:9-11 | an absent IP returns None and changes nothing; a present IP returns its record and becomes the most recently used, the other IPs keeping their recency order |
| LegacyCache.CacheStunInfo | stun_ip_resolver/cache.py:13-19 | stores `{ip, port, nat_type}` under `ip`, read back exactly by an immediate lookup; other surviving entries are unchanged; with room nothing is evicted and `ip` goes last in `keys()` and in recency; when full exactly the least recently used IP is evicted; rewriting a present IP moves only it to the end of the recency order |
| LegacyCache.ClearCache | stun_ip_resolver/cache.py:21-23 | after clearing, every lookup returns None |
| LegacyCache.RewriteReplaces | stun_ip_resolver/cache.py:15 | writing an IP again replaces its record rather than merging, and other IPs and the key order are unaffected |
| LegacyCache.Perform | stun_ip_resolver/cache.py:9-23 | one `get_cached_info`, `cache_stun_info` or `clear_cache` call keeps the capacity; a lookup keeps the stored records and a clear empties the map |
| LegacyCache.BoundedByMaxSize | stun_ip_resolver/cache.py:6-7 | no sequence of `get_cached_info`, `cache_stun_info` and `clear_cache` calls takes the number of entries past `max_size` |
| LegacyCache.StaysKeyedByIp | stun_ip_resolver/cache.py:13-19 | `cache_stun_info` stores `{ip, ...}` under `ip`, so across any sequence of calls every record stays under the IP it names |
| LegacyCache.CapacityOneScenario | stun_ip_resolver/cache.py:7 | with capacity 1, writing "a" then "b" evicts "a" and keeps "b" |
| Legacy.NewLegacyClient | stun_ip_resolver/core.py:7-10 | a new client keeps the server and port and starts with an empty cache of capacity 100 |
| Legacy.CallAsWritten | stun_ip_resolver/core.py:28-30 | the call the client makes: source 0.0.0.0, the server name in the source-port parameter, the port in the host parameter, and the library's default `stun_port` |
| Legacy.CallAsWrittenMisroutes | stun_ip_resolver/core.py:28-30 | as written, the configured server is never the host asked and the call is not the four-argument call to the configured server and port |
| Legacy.DefaultLegacyClient | stun_ip_resolver/core.py:7-10 | `STUNClient()` uses stun.l.google.com, port 19302 and an empty cache of 100 entries, and its first miss sends `("0.0.0.0", "stun.l.google.com", 19302, 3478)` |
| Legacy.GetStunInfo | stun_ip_resolver/core.py:12-38 | makes no call exactly when the cache is non-empty, and then returns the record under the first key in iteration order; otherwise makes the three-argument call as written, and on success stores the record under the reported IP as the only key and returns it; a failure or a refused write becomes the wrapped error with the cache unchanged; the capacity never changes; a hit makes the first key the most recently used, the others keeping their recency order |
| Legacy.PublicIp | stun_ip_resolver/core.py:40-43 | returns the `ip` of one full resolution |
| Legacy.PublicPort | stun_ip_resolver/core.py:45-48 | returns the `port` of one full resolution |
| Legacy.NatType | stun_ip_resolver/core.py:50-53 | returns the `nat_type` of one full resolution |
| Legacy.SecondCallNoQuery | stun_ip_resolver/core.py:16-23 | after any successful call, the next call makes no external call and returns the same record |
| Legacy.NonEmptyCacheNeverQueries | stun_ip_resolver/core.py:16-35 | once the cache is non-empty, no later call reaches the network and the cached records never change |
| Legacy.AtMostOneEntry | stun_ip_resolver/core.py:16-35 | the client's cache never holds more than one entry, because it writes only into an empty cache |
| Contrast.ExactLookupSeparatesCallers | conexia/core.py:45-53 | conexia: a record stored for one principal does not serve another principal, who gets its own external call |
| Contrast.ScanServesEveryCaller | stun_ip_resolver/core.py:16-23 | legacy: once anything is cached, every caller gets the same record with no external call, whatever its own network would report |

## Findings

| source | as written | input that shows it | evidently intended | confidence | as-written member | corrected member |
|---|---|---|---|---|---|---|
| stun_ip_resolver/core.py:28-30 | `get_ip_info("0.0.0.0", self.stun_server, self.stun_port)` binds by position to `(source_ip, source_port, stun_host, stun_port)`, so the server name becomes the source port and the port becomes the host; what the library then does (most likely raise on a textual source port) is not in this model | any client, e.g. the defaults `stun.l.google.com`, 19302: the call is `(0.0.0.0, "stun.l.google.com", 19302, 3478)` | query `stun_host=stun_server, stun_port=stun_port` from source 0.0.0.0:54320, as the four-argument call in conexia/core.py:58-60 does | medium (the parameter order is the one the conexia call relies on); not executed | Legacy.CallAsWritten, Legacy.CallAsWrittenMisroutes, Legacy.DefaultLegacyClient | Stun.ServerCall |

## Left out

- Asynchrony and concurrency. The `run_in_executor` offload, concurrent callers and last-write-wins between concurrent misses are left out: each `get_stun_info` is one sequential step.
- The STUN exchange itself is an oracle. It returns the `(nat_type, ip, port)` triple or raises; NAT types are opaque strings. Replies with `None` address fields are not distinguished from other triples.
- Backend storage mechanics are left out: JSON file I/O, SQLite SQL, Redis connections, lazy deletion of stale SQLite rows, and what `_get_cached_ips` lists per backend. Only "the backend holds some key, fresh or stale" is kept. The memory backend's capacity bound and its eviction live in conexia/cache.py, which is not part of this model; LRU eviction is modelled for the legacy cache.
- I/O faults inside the try block are left out. These are a failing identity-file read or write, a failing key listing in `_get_cached_ips` (conexia/core.py:48: the SQLite connection or the Redis `keys` call), a failing `get_cached_info` (conexia/core.py:50) and a failing cache write. In the program each of these is wrapped as a `STUNResolutionError`; in the model identity derivation, key listing, lookups and cache writes always succeed.
- Each `get_stun_info` is modelled at one clock reading `now`. In the model the record's `timestamp` (conexia/core.py:39) therefore equals the time it is stored (conexia/core.py:62). In the program the storing time is later, by the time the identity derivation, the key listing and the network call take, so a backend that counts freshness from `timestamp` expires the record that much sooner than the model says.
- TtlCache.ParseBackend: the unknown-backend error is raised in conexia/cache.py, which is outside this model; its type is modelled as `ConfigurationError`, and its message is not pinned.
- Conexia.NewClient: the `int(...)` conversion of a textual port is not modelled. Ports are integers, and `0` falls back to the default as Python's `or` makes it.
- Identity.UserId: `str(request.user.id)` is taken as the id's text; ids are modelled as strings.
- Identity.UserId: a user object without an `is_authenticated` attribute is not represented, because the raised message names the object's class, which is outside this model; a `user` set to `None` is modelled and raises.
- TtlCache.GetCachedInfo: freshness is taken to count from the moment of storing for every backend. Only the memory backend is pinned by tests/test_core.py:10,24-29; the file and SQLite backends may count from the caller's `timestamp` instead. TtlCache.FreshnessIgnoresTimestamp and TtlCache.TwoSecondScenario inherit this assumption.
- The corrected four-argument call (Stun.ServerCall) is not wired into a second legacy orchestrator. The legacy step sends the call as written, and the oracle decides what it answers.
- Floating-point `time.time()` is integer seconds. The debug `print`s and the module-level `asyncio.run(main())` of stun_ip_resolver/core.py:55-65 are dropped.
- Middleware (Flask, Django, ASGI), the command-line entry point and packaging are left out. They are integration glue outside the core.
- `clear` of all identities for the conexia cache is not modelled, because neither conexia/core.py nor the tests call it.

=== FILE: common.dfy ===
/** Shared vocabulary of both clients: optional values, the error kinds the
    source raises, the record a resolution produces, and one orchestration
    step (its result, the state after it, and the external queries it made). */
module Common {

  import Stun

  datatype Option<+T> = None | Some(value: T)

  /** The exception classes that reach a caller. `ValueError` is Python's,
      raised by `random.randint` on an empty range and by the LRU map on an
      item larger than its capacity; `ConfigurationError` is an unknown cache
      backend; `AttributeError` is Python's, raised by reading an attribute
      of `None`; `StunResolutionError` wraps every failure inside
      `get_stun_info`. */
  datatype Error =
    | ValueError(message: string)
    | AttributeError(message: string)
    | ConfigurationError(message: string)
    | StunResolutionError(message: string)

  datatype Result<+T> = Success(value: T) | Failure(error: Error)

  /** The `data` part of a conexia record: `{ip, port, nat_type}`. */
  datatype StunData = StunData(ip: string, port: int, natType: string)

  /** A conexia record: `{user_id, data, timestamp}`. */
  datatype StunInfo = StunInfo(userId: string, data: StunData, timestamp: int)

  /** One orchestration step over some state `S`: what the caller gets, the
      state afterwards, and the external discovery calls made on the way. */
  datatype Step<T, S> = Step(result: Result<T>, state: S, queries: seq<Stun.StunCall>)

  /** The text both clients put in front of the cause of a failure. */
  const ResolutionPrefix: string := "Failed to retrieve STUN Info: "

  predicate StartsWith(s: string, prefix: string) {
    |prefix| <= |s| && s[..|prefix|] == prefix
  }

  predicate EndsWith(s: string, suffix: string) {
    |suffix| <= |s| && s[|s| - |suffix|..] == suffix
  }

  /** `raise STUNResolutionError(f"Failed to retrieve STUN Info: {e}")`:
      the message is the fixed prefix followed by the whole cause. */
  function WrapResolution(cause: string): (e: Error)
    ensures e.StunResolutionError?
    ensures StartsWith(e.message, ResolutionPrefix)
    ensures EndsWith(e.message, cause)
    ensures |e.message| == |ResolutionPrefix| + |cause|
  {
    StunResolutionError(ResolutionPrefix + cause)
  }

  /** Two causes give two different messages: the wrapping loses nothing. */
  lemma WrapResolutionInjective(a: string, b: string)
    requires WrapResolution(a) == WrapResolution(b)
    ensures a == b
  {
    var m := WrapResolution(a).message;
    assert a == m[|ResolutionPrefix|..];
    assert b == WrapResolution(b).message[|ResolutionPrefix|..];
  }
}

=== FILE: conexia.dfy ===
/** The conexia client (conexia/core.py): server selection at construction
    and the `get_stun_info` state machine — derive the identity, consult the
    cache only when the backend holds any key, return a hit unchanged, and
    otherwise make exactly one external call, store its result under the
    identity and return it. The clock is `now`, `uuid.uuid4()` is `newUuid`,
    `random.randint` is `pick`, and the discovery library is `resolve`. */
module Conexia {

  import opened Common
  import opened Stun
  import Identity
  import TtlCache

  /** One entry of the default server list: `{"server": …, "port": …}`. */
  datatype ServerEntry = ServerEntry(server: string, port: int)

  /** A constructed client: the server it queries and the cache it owns. */
  datatype Client = Client(stunServer: string, stunPort: int, cache: TtlCache.Cache)

  const DefaultBackend: string := "file"
  const DefaultTtl: int := 300

  /** Python truthiness of the optional constructor arguments: `None` and the
      empty string, respectively `None` and `0`, fall back to the default. */
  predicate ServerGiven(stunServer: Option<string>) {
    stunServer.Some? && stunServer.value != ""
  }

  predicate PortGiven(stunPort: Option<int>) {
    stunPort.Some? && stunPort.value != 0
  }

  /** `STUNClient.__init__`. `pick` is the value `random.randint(0, len - 1)`
      returns; `stored` is what the chosen backend already holds. The random
      index is drawn before anything else, so an empty default list fails
      even when both server and port are given. */
  function NewClient(stunServer: Option<string>, stunPort: Option<int>, cacheBackend: string, ttl: int,
                     defaults: seq<ServerEntry>, pick: nat, stored: map<string, TtlCache.Entry>): (r: Result<Client>)
    requires |defaults| > 0 ==> pick < |defaults|
    ensures |defaults| == 0 ==> r.Failure? && r.error.ValueError?
    ensures |defaults| > 0 ==> (r.Success? <==> TtlCache.ParseBackend(cacheBackend).Success?)
    ensures r.Failure? && |defaults| > 0 ==> r.error.ConfigurationError?
    ensures r.Success? ==> TtlCache.BackendName(r.value.cache.kind) == cacheBackend
                           && r.value.cache.ttl == ttl && r.value.cache.entries == stored
    ensures r.Success? && ServerGiven(stunServer) ==> r.value.stunServer == stunServer.value
    ensures r.Success? && PortGiven(stunPort) ==> r.value.stunPort == stunPort.value
    ensures r.Success? ==>
              exists i :: && 0 <= i < |defaults|
                          && (!ServerGiven(stunServer) ==> defaults[i].server == r.value.stunServer)
                          && (!PortGiven(stunPort) ==> defaults[i].port == r.value.stunPort)
  {
    if |defaults| == 0 then Failure(ValueError("empty range for randrange() (0, 0, 0)"))
    else
      var entry := defaults[pick];
      var server := if ServerGiven(stunServer) then stunServer.value else entry.server;
      var port := if PortGiven(stunPort) then stunPort.value else entry.port;
      match TtlCache.ParseBackend(cacheBackend)
      case Failure(e) => Failure(e)
      case Success(kind) => Success(Client(server, port, TtlCache.Cache(kind, ttl, stored)))
  }

  /** `STUNClient()` with every argument left out: the file backend, a
      300-second time-to-live, and one default server with its own port. */
  lemma DefaultConstruction(defaults: seq<ServerEntry>, pick: nat, stored: map<string, TtlCache.Entry>)
    requires 0 < |defaults| && pick < |defaults|
    ensures var r := NewClient(None, None, DefaultBackend, DefaultTtl, defaults, pick, stored);
            && r.Success?
            && r.value.cache.kind == TtlCache.File
            && r.value.cache.ttl == 300
            && exists i :: 0 <= i < |defaults| && defaults[i] == ServerEntry(r.value.stunServer, r.value.stunPort)
  {
  }

  /** The library call conexia makes: the configured server and port. */
  function CallFor(client: Client): StunCall {
    ServerCall(client.stunServer, client.stunPort)
  }

  /** The client together with the machine-identity file. */
  datatype World = World(client: Client, machineFile: Option<string>)

  /** A fresh record the cache holds for `identity` at `now`, if any. */
  function Cached(w: World, identity: string, now: int): Option<StunInfo> {
    TtlCache.GetCachedInfo(w.client.cache, identity, now)
  }

  /** The part of `get_stun_info` after `user_id` is known: consult the
      cache only when the backend holds any key, return a hit unchanged, and
      otherwise make the external call, store its result under `identity`
      with the call's own time as timestamp, and return it. A raising call
      is reported as a resolution error and stores nothing. */
  function Lookup(client: Client, identity: string, now: int, resolve: StunCall -> StunReply): (o: Step<StunInfo, Client>)
    ensures o.state.stunServer == client.stunServer && o.state.stunPort == client.stunPort
    ensures o.queries == [] <==> TtlCache.GetCachedInfo(client.cache, identity, now).Some?
    ensures o.queries == [] ==> o.result == Success(TtlCache.GetCachedInfo(client.cache, identity, now).value)
                                && o.state == client
    ensures o.queries != [] ==> o.queries == [CallFor(client)]
    ensures var reply := resolve(CallFor(client));
            o.queries != [] && reply.Raised? ==>
              o.result == Failure(WrapResolution(reply.message)) && o.state == client
    ensures var reply := resolve(CallFor(client));
            o.queries != [] && reply.Reply? ==>
              && o.result == Success(StunInfo(identity, StunData(reply.ip, reply.port, reply.natType), now))
              && o.state.cache == TtlCache.CacheStunInfo(client.cache, identity, reply.ip, reply.port, reply.natType, now, now)
  {
    var timestamp := now;
    var hit := if TtlCache.HasAnyKeys(client.cache) then TtlCache.GetCachedInfo(client.cache, identity, now) else None;
    if hit.Some? then
      Step(Success(hit.value), client, [])
    else
      var call := CallFor(client);
      match resolve(call)
      case Raised(message) => Step(Failure(WrapResolution(message)), client, [call])
      case Reply(natType, ip, port) =>
        var cache := TtlCache.CacheStunInfo(client.cache, identity, ip, port, natType, timestamp, now);
        Step(Success(StunInfo(identity, StunData(ip, port, natType), timestamp)), client.(cache := cache), [call])
  }

  /** `get_stun_info(request)` at clock reading `now`: the identity is
      derived first (possibly creating the machine-identity file); a hit is
      the record cached under that identity, and a fresh record carries it.
      A derivation that raises is reported as a resolution error before
      anything else happens. */
  function GetStunInfo(w: World, request: Option<Identity.Request>, now: int, newUuid: string, resolve: StunCall -> StunReply): (o: Step<StunInfo, World>)
    ensures var u := Identity.UserId(request, w.machineFile, newUuid);
            u.Failure? ==> o.result == Failure(WrapResolution(u.error.message)) && o.state == w && o.queries == []
    ensures var u := Identity.UserId(request, w.machineFile, newUuid);
            u.Success? ==>
              && o.state.machineFile == u.value.file
              && (o.queries == [] <==> Cached(w, u.value.identity, now).Some?)
              && (o.queries == [] ==> o.result == Success(Cached(w, u.value.identity, now).value))
              && (o.queries != [] && o.result.Success? ==> o.result.value.userId == u.value.identity)
  {
    match Identity.UserId(request, w.machineFile, newUuid)
    case Failure(e) => Step(Failure(WrapResolution(e.message)), w, [])
    case Success(d) =>
      var r := Lookup(w.client, d.identity, now, resolve);
      Step(r.result, World(r.state, d.file), r.queries)
  }

  /** With an empty backend the identity lookup is skipped and the external
      call is made whenever the identity can be derived. */
  lemma EmptyBackendAlwaysQueries(w: World, request: Option<Identity.Request>, now: int, newUuid: string,
                                  resolve: StunCall -> StunReply)
    requires !TtlCache.HasAnyKeys(w.client.cache)
    ensures GetStunInfo(w, request, now, newUuid, resolve).queries
            == if Identity.ReadsNoneUser(request) then [] else [CallFor(w.client)]
  {
  }

  /** When the records are keyed by their own `user_id`, every successful
      result belongs to the derived identity, hit or miss, and the cache
      stays keyed that way. */
  lemma ResultBelongsToCaller(w: World, request: Option<Identity.Request>, now: int, newUuid: string,
                              resolve: StunCall -> StunReply)
    requires TtlCache.KeyedByUser(w.client.cache)
    ensures var o := GetStunInfo(w, request, now, newUuid, resolve);
            var u := Identity.UserId(request, w.machineFile, newUuid);
            && TtlCache.KeyedByUser(o.state.client.cache)
            && (o.result.Success? ==> u.Success? && o.result.value.userId == u.value.identity)
  {
  }

  /** A failed call caches nothing: every identity reads as before, at every
      time. The error is a resolution error ending with the cause, which is
      the attribute error of a `None` user or else the oracle's message. The
      machine identity may still have been created. */
  lemma FailureCachesNothing(w: World, request: Option<Identity.Request>, now: int, newUuid: string,
                             resolve: StunCall -> StunReply, key: string, later: int)
    requires GetStunInfo(w, request, now, newUuid, resolve).result.Failure?
    ensures var o := GetStunInfo(w, request, now, newUuid, resolve);
            && Cached(o.state, key, later) == Cached(w, key, later)
            && o.result.error.StunResolutionError?
            && EndsWith(o.result.error.message,
                        if Identity.ReadsNoneUser(request) then Identity.NoneUserMessage
                        else resolve(CallFor(w.client)).message)
  {
  }

  /** After a successful miss, the identity's record is readable for the whole
      time-to-live and equals what the call returned. */
  lemma MissIsStored(w: World, request: Option<Identity.Request>, now: int, newUuid: string,
                     resolve: StunCall -> StunReply, later: int)
    requires now <= later < now + w.client.cache.ttl
    ensures var o := GetStunInfo(w, request, now, newUuid, resolve);
            var u := Identity.UserId(request, w.machineFile, newUuid);
            o.queries != [] && o.result.Success? ==>
              u.Success? && Cached(o.state, u.value.identity, later) == Some(o.result.value)
  {
  }

  /** When a call misses and the oracle answers, the next call for the same
      request within the time-to-live makes no external call and returns the
      same record, whatever the clock, the UUID generator and the oracle then
      offer. */
  lemma SecondCallHits(w: World, request: Option<Identity.Request>, t1: int, t2: int,
                       u1: string, u2: string, r1: StunCall -> StunReply, r2: StunCall -> StunReply)
    requires Identity.IsUuidText(u1) && !Identity.ReadsNoneUser(request)
    requires t1 <= t2 < t1 + w.client.cache.ttl
    requires Cached(w, Identity.UserId(request, w.machineFile, u1).value.identity, t1).None?
    requires r1(CallFor(w.client)).Reply?
    ensures var first := GetStunInfo(w, request, t1, u1, r1);
            var second := GetStunInfo(first.state, request, t2, u2, r2);
            second.queries == [] && second.result == first.result && second.state == first.state
  {
    var first := GetStunInfo(w, request, t1, u1, r1);
    var d1 := Identity.UserId(request, w.machineFile, u1).value;
    Identity.UserIdIdempotent(request, w.machineFile, u1, u2);
    MissIsStored(w, request, t1, u1, r1, t2);
    assert Cached(first.state, d1.identity, t2) == Some(first.result.value);
  }

  /** `get_user_id()`: the `user_id` of a full resolution. */
  function UserIdOf(w: World, request: Option<Identity.Request>, now: int, newUuid: string,
                    resolve: StunCall -> StunReply): (s: Step<string, World>)
    ensures var o := GetStunInfo(w, request, now, newUuid, resolve);
            && s.state == o.state && s.queries == o.queries
            && (s.result.Success? <==> o.result.Success?)
            && (s.result.Success? ==> s.result.value == o.result.value.userId)
            && (s.result.Failure? ==> s.result.error == o.result.error)
  {
    var o := GetStunInfo(w, request, now, newUuid, resolve);
    match o.result
    case Success(info) => Step(Success(info.userId), o.state, o.queries)
    case Failure(e) => Step(Failure(e), o.state, o.queries)
  }

  /** `get_public_ip()`: the `data.ip` of a full resolution. */
  function PublicIp(w: World, request: Option<Identity.Request>, now: int, newUuid: string,
                    resolve: StunCall -> StunReply): (s: Step<string, World>)
    ensures var o := GetStunInfo(w, request, now, newUuid, resolve);
            && s.state == o.state && s.queries == o.queries
            && (s.result.Success? <==> o.result.Success?)
            && (s.result.Success? ==> s.result.value == o.result.value.data.ip)
            && (s.result.Failure? ==> s.result.error == o.result.error)
  {
    var o := GetStunInfo(w, request, now, newUuid, resolve);
    match o.result
    case Success(info) => Step(Success(info.data.ip), o.state, o.queries)
    case Failure(e) => Step(Failure(e), o.state, o.queries)
  }

  /** `get_public_port()`: the `data.port` of a full resolution. */
  function PublicPort(w: World, request: Option<Identity.Request>, now: int, newUuid: string,
                      resolve: StunCall -> StunReply): (s: Step<int, World>)
    ensures var o := GetStunInfo(w, request, now, newUuid, resolve);
            && s.state == o.state && s.queries == o.queries
            && (s.result.Success? <==> o.result.Success?)
            && (s.result.Success? ==> s.result.value == o.result.value.data.port)
            && (s.result.Failure? ==> s.result.error == o.result.error)
  {
    var o := GetStunInfo(w, request, now, newUuid, resolve);
    match o.result
    case Success(info) => Step(Success(info.data.port), o.state, o.queries)
    case Failure(e) => Step(Failure(e), o.state, o.queries)
  }

  /** `get_nat_type()`: the `data.nat_type` of a full resolution. */
  function NatType(w: World, request: Option<Identity.Request>, now: int, newUuid: string,
                   resolve: StunCall -> StunReply): (s: Step<string, World>)
    ensures var o := GetStunInfo(w, request, now, newUuid, resolve);
            && s.state == o.state && s.queries == o.queries
            && (s.result.Success? <==> o.result.Success?)
            && (s.result.Success? ==> s.result.value == o.result.value.data.natType)
            && (s.result.Failure? ==> s.result.error == o.result.error)
  {
    var o := GetStunInfo(w, request, now, newUuid, resolve);
    match o.result
    case Success(info) => Step(Success(info.data.natType), o.state, o.queries)
    case Failure(e) => Step(Failure(e), o.state, o.queries)
  }

  /** The four accessors called one after another (as a command-line caller
      does) within the time-to-live share one resolution: at most the first
      makes an external call, and when the first call misses and the oracle
      answers, all four report fields of the record that call produced. */
  lemma AccessorsShareOneResolution(w: World, request: Option<Identity.Request>, t1: int, t2: int, t3: int, t4: int,
                                    u1: string, u2: string, u3: string, u4: string,
                                    r1: StunCall -> StunReply, r2: StunCall -> StunReply,
                                    r3: StunCall -> StunReply, r4: StunCall -> StunReply)
    requires Identity.IsUuidText(u1) && !Identity.ReadsNoneUser(request)
    requires t1 <= t2 <= t3 <= t4 < t1 + w.client.cache.ttl
    requires Cached(w, Identity.UserId(request, w.machineFile, u1).value.identity, t1).None?
    requires r1(CallFor(w.client)).Reply?
    ensures var first := GetStunInfo(w, request, t1, u1, r1);
            var info := first.result.value;
            var s1 := UserIdOf(w, request, t1, u1, r1);
            var s2 := PublicIp(s1.state, request, t2, u2, r2);
            var s3 := PublicPort(s2.state, request, t3, u3, r3);
            var s4 := NatType(s3.state, request, t4, u4, r4);
            && |s1.queries| + |s2.queries| + |s3.queries| + |s4.queries| == 1
            && s1.result == Success(info.userId)
            && s2.result == Success(info.data.ip)
            && s3.result == Success(info.data.port)
            && s4.result == Success(info.data.natType)
  {
    var first := GetStunInfo(w, request, t1, u1, r1);
    SecondCallHits(w, request, t1, t2, u1, u2, r1, r2);
    SecondCallHits(w, request, t1, t3, u1, u3, r1, r3);
    SecondCallHits(w, request, t1, t4, u1, u4, r1, r4);
  }
}

=== FILE: contrast.dfy ===
/** The two clients answer "whose record?" differently. conexia looks up
    exactly the caller's identity, so another caller's record never serves
    it; the legacy client returns the first cached record to anyone, so two
    callers whose networks would report different addresses get the same
    answer once anything is cached. */
module Contrast {

  import opened Common
  import opened Stun
  import Identity
  import TtlCache
  import Conexia
  import Lru
  import Legacy

  /** conexia: a fresh record stored for one principal does not answer a
      different principal, who gets its own external call. */
  lemma ExactLookupSeparatesCallers(w: Conexia.World, alice: Identity.User, bob: Identity.User,
                                    now: int, newUuid: string, resolve: StunCall -> StunReply)
    requires alice.isAuthenticated && bob.isAuthenticated && alice.id != bob.id
    requires w.client.cache.entries.Keys == {alice.id}
    ensures var o := Conexia.GetStunInfo(w, Some(Identity.Request(Identity.UserObject(bob))), now, newUuid, resolve);
            o.queries == [Conexia.CallFor(w.client)]
  {
  }

  /** Legacy: once the cache holds a record, the answer does not depend on
      the network of whoever asks, even when it would report a different
      address. */
  lemma ScanServesEveryCaller(client: Legacy.LegacyClient, r1: StunCall -> StunReply, r2: StunCall -> StunReply)
    requires Lru.Valid(client.cache) && client.cache.values != map[]
    ensures Legacy.GetStunInfo(client, r1).result == Legacy.GetStunInfo(client, r2).result
    ensures Legacy.GetStunInfo(client, r1).queries == []
  {
  }
}

=== FILE: identity.dfy ===
/** Caller identity (conexia/utils.py): an authenticated principal's id, or
    else a machine UUID that is created once, persisted in a file and read
    back on every later call. The file is an `Option<string>` (absent or its
    text) and `uuid.uuid4()` is the parameter `newUuid`. */
module Identity {

  import opened Common

  /** Python's `str.isspace()`: the characters `str.strip()` removes. */
  predicate IsSpace(c: char) {
    var n := c as int;
    (9 <= n <= 13) || (28 <= n <= 32) || n == 0x85 || n == 0xA0 || n == 0x1680
    || (0x2000 <= n <= 0x200A) || n == 0x2028 || n == 0x2029 || n == 0x202F
    || n == 0x205F || n == 0x3000
  }

  predicate AllSpace(s: string) {
    forall k :: 0 <= k < |s| ==> IsSpace(s[k])
  }

  /** Neither end of `s` is whitespace. */
  predicate Trimmed(s: string) {
    |s| > 0 ==> !IsSpace(s[0]) && !IsSpace(s[|s| - 1])
  }

  /** `r` is `s` with whitespace, and only whitespace, cut from both ends,
      and as much of it as possible. */
  ghost predicate StrippedOf(s: string, r: string) {
    exists i, j :: 0 <= i <= j <= |s| && r == s[i..j] && AllSpace(s[..i]) && AllSpace(s[j..]) && Trimmed(r)
  }

  /** Removes leading whitespace: the result is a suffix of `s`, everything
      cut is whitespace, and the result does not start with whitespace. */
  function TrimStart(s: string): (r: string)
    ensures |r| <= |s| && r == s[|s| - |r|..]
    ensures AllSpace(s[..|s| - |r|])
    ensures |r| > 0 ==> !IsSpace(r[0])
  {
    if |s| > 0 && IsSpace(s[0]) then
      var t := TrimStart(s[1..]);
      var cut := |s| - |t|;
      assert t == s[cut..] by { assert s[1..][|s| - 1 - |t|..] == s[cut..]; }
      forall k | 0 <= k < cut ensures IsSpace(s[..cut][k]) {
        if k > 0 { assert s[..cut][k] == s[1..][..cut - 1][k - 1]; }
      }
      t
    else s
  }

  /** Removes trailing whitespace: the result is a prefix of `s`, everything
      cut is whitespace, and the result does not end with whitespace. */
  function TrimEnd(s: string): (r: string)
    ensures |r| <= |s| && r == s[..|r|]
    ensures AllSpace(s[|r|..])
    ensures |r| > 0 ==> !IsSpace(r[|r| - 1])
  {
    if |s| > 0 && IsSpace(s[|s| - 1]) then
      var t := TrimEnd(s[..|s| - 1]);
      assert s[..|s| - 1][|t|..] == s[|t|..|s| - 1];
      t
    else s
  }

  /** `str.strip()`: no whitespace is left at either end. */
  function Strip(s: string): (r: string)
    ensures |r| <= |s| && Trimmed(r)
  {
    var t := TrimStart(s);
    var r := TrimEnd(t);
    assert |r| > 0 ==> r[0] == t[0];
    r
  }

  /** What `strip` cuts is exactly the whitespace margins of `s`: the
      result is a contiguous piece of `s`, everything before and after it is
      whitespace, and it has no whitespace margin of its own. */
  lemma StripCutsOnlyMargins(s: string)
    ensures StrippedOf(s, Strip(s))
  {
    var t := TrimStart(s);
    var r := TrimEnd(t);
    var i := |s| - |t|;
    var j := i + |r|;
    assert t[|r|..] == s[j..];
    assert r == s[i..j];
  }

  /** The canonical text of `uuid.uuid4()`: 8-4-4-4-12 lower-case hex digits. */
  predicate IsUuidText(u: string) {
    |u| == 36
    && forall k :: 0 <= k < 36 ==>
         if k == 8 || k == 13 || k == 18 || k == 23 then u[k] == '-'
         else ('0' <= u[k] <= '9' || 'a' <= u[k] <= 'f')
  }

  /** Stripping text that has no whitespace margins changes nothing. */
  lemma StripTrimmed(s: string)
    requires Trimmed(s)
    ensures Strip(s) == s
  {
    assert TrimStart(s) == s;
    assert TrimEnd(s) == s;
  }

  /** `strip` is idempotent. */
  lemma StripIdempotent(s: string)
    ensures Strip(Strip(s)) == Strip(s)
  {
    StripTrimmed(Strip(s));
  }

  /** A freshly generated UUID survives the `strip()` applied when it is
      read back from the file. */
  lemma UuidSurvivesStrip(u: string)
    requires IsUuidText(u)
    ensures Strip(u) == u
  {
    assert u[0] != ' ' && !IsSpace(u[0]);
    assert !IsSpace(u[35]);
    StripTrimmed(u);
  }

  /** The identity derived by one call and the machine-identity file after it. */
  datatype Derived = Derived(identity: string, file: Option<string>)

  /** `get_machine_uuid`: read and strip the persisted text if the file
      exists, writing nothing; otherwise persist `newUuid` and return it. */
  function MachineUuid(file: Option<string>, newUuid: string): (d: Derived)
    ensures file.Some? ==> d.file == file && d.identity == Strip(file.value)
    ensures file.None? ==> d.identity == newUuid && d.file == Some(newUuid)
  {
    match file
    case Some(text) => Derived(Strip(text), file)
    case None => Derived(newUuid, Some(newUuid))
  }

  /** A user object: its id and its `is_authenticated` flag. */
  datatype User = User(id: string, isAuthenticated: bool)

  /** The `user` attribute of a request: missing, set to `None`, or a user
      object. */
  datatype UserAttr = NoUserAttr | NoneUser | UserObject(user: User)

  /** A web request. A missing request (`request=None`) is `None` one level
      up. */
  datatype Request = Request(user: UserAttr)

  predicate HasPrincipal(request: Option<Request>) {
    request.Some? && request.value.user.UserObject? && request.value.user.user.isAuthenticated
  }

  /** The request has a `user` attribute whose value is `None`, so reading
      `request.user.is_authenticated` raises. */
  predicate ReadsNoneUser(request: Option<Request>) {
    request.Some? && request.value.user.NoneUser?
  }

  const NoneUserMessage: string := "'NoneType' object has no attribute 'is_authenticated'"

  /** `get_user_id`: the principal's id when the request carries an
      authenticated user, the machine UUID when there is no request, no
      `user` attribute or an unauthenticated user, and an `AttributeError`
      when `user` is `None`. */
  function UserId(request: Option<Request>, file: Option<string>, newUuid: string): (r: Result<Derived>)
    ensures r.Failure? <==> ReadsNoneUser(request)
    ensures r.Failure? ==> r.error == AttributeError(NoneUserMessage)
    ensures HasPrincipal(request) ==> r == Success(Derived(request.value.user.user.id, file))
    ensures !HasPrincipal(request) && !ReadsNoneUser(request) ==> r == Success(MachineUuid(file, newUuid))
  {
    if ReadsNoneUser(request) then Failure(AttributeError(NoneUserMessage))
    else if HasPrincipal(request) then Success(Derived(request.value.user.user.id, file))
    else Success(MachineUuid(file, newUuid))
  }

  /** Once the file exists it is never written again, whatever UUID the
      generator would offer. */
  lemma MachineUuidNeverRewrites(text: string, u1: string, u2: string)
    ensures MachineUuid(Some(text), u1).file == Some(text)
    ensures MachineUuid(Some(text), u1) == MachineUuid(Some(text), u2)
  {
  }

  /** Create once, read thereafter: after any first call, a second call
      returns the same identity and leaves the file as the first call left
      it. */
  lemma MachineUuidIdempotent(file: Option<string>, u1: string, u2: string)
    requires IsUuidText(u1)
    ensures var first := MachineUuid(file, u1);
            var second := MachineUuid(first.file, u2);
            second == first
  {
    match file
    case Some(text) => StripIdempotent(text);
    case None => UuidSurvivesStrip(u1);
  }

  /** The identity of a request is stable across calls: deriving it twice in
      a row gives the same identity and the same file. */
  lemma UserIdIdempotent(request: Option<Request>, file: Option<string>, u1: string, u2: string)
    requires IsUuidText(u1)
    ensures var first := UserId(request, file, u1);
            first.Success? ==> UserId(request, first.value.file, u2) == first
  {
    if !HasPrincipal(request) && !ReadsNoneUser(request) {
      MachineUuidIdempotent(file, u1, u2);
    }
  }
}

=== FILE: legacy.dfy ===
/** The legacy resolver client (stun_ip_resolver/core.py). Its lookup walks
    the cache's keys and returns the record under the first one, whoever
    asks; only an empty cache leads to the external call, whose result is
    stored under the IP it reports. */
module Legacy {

  import opened Common
  import opened Stun
  import Lru
  import LegacyCache

  datatype LegacyClient = LegacyClient(stunServer: string, stunPort: int, cache: LegacyCache.IpCache)

  const DefaultServer: string := "stun.l.google.com"
  const DefaultPort: int := 19302

  /** `STUNClient(stun_server, stun_port)`: a fresh cache of the default
      capacity. */
  function NewLegacyClient(stunServer: string, stunPort: int): (c: LegacyClient)
    ensures c.stunServer == stunServer && c.stunPort == stunPort
    ensures Lru.Valid(c.cache) && c.cache.maxSize == 100 && c.cache.values == map[] && c.cache.keys == []
  {
    LegacyClient(stunServer, stunPort, LegacyCache.NewIpCache(LegacyCache.DefaultMaxSize))
  }

  /** The library call as the source writes it, `get_ip_info("0.0.0.0",
      self.stun_server, self.stun_port)`: three positional arguments, so the
      server name fills `source_port`, the port fills `stun_host`, and
      `stun_port` keeps the library default. This is the call the client
      makes; what the library does with it is up to the oracle. */
  function CallAsWritten(client: LegacyClient): (c: StunCall)
    ensures c.sourceIp == Text("0.0.0.0")
    ensures c.sourcePort == Text(client.stunServer) && c.stunHost == Num(client.stunPort)
    ensures c.stunPort == LibraryDefaults[3]
  {
    Bind([Text("0.0.0.0"), Text(client.stunServer), Num(client.stunPort)])
  }

  /** As written, the configured server is never the host asked, and the
      call differs from the four-argument call that queries the configured
      server and port. */
  lemma CallAsWrittenMisroutes(client: LegacyClient)
    ensures CallAsWritten(client).stunHost != Text(client.stunServer)
    ensures CallAsWritten(client).stunPort == Num(3478)
    ensures CallAsWritten(client) != ServerCall(client.stunServer, client.stunPort)
  {
    assert Params(CallAsWritten(client))[1] == Text(client.stunServer);
    assert Params(CallAsWritten(client))[2] == Num(client.stunPort);
    assert Params(CallAsWritten(client))[3] == LibraryDefaults[3];
  }

  /** `STUNClient()` with both arguments left out: stun.l.google.com on
      port 19302 through an empty cache of 100 entries, whose first miss
      sends the call `("0.0.0.0", "stun.l.google.com", 19302, 3478)`. */
  lemma DefaultLegacyClient()
    ensures var c := NewLegacyClient(DefaultServer, DefaultPort);
            && c.stunServer == "stun.l.google.com" && c.stunPort == 19302
            && c.cache.maxSize == 100 && c.cache.keys == []
            && CallAsWritten(c) == StunCall(Text("0.0.0.0"), Text("stun.l.google.com"), Num(19302), Num(3478))
  {
  }

  /** `get_stun_info()`. */
  function GetStunInfo(client: LegacyClient, resolve: StunCall -> StunReply): (o: Step<LegacyCache.LegacyInfo, LegacyClient>)
    requires Lru.Valid(client.cache)
    ensures Lru.Valid(o.state.cache)
    ensures o.state.stunServer == client.stunServer && o.state.stunPort == client.stunPort
    ensures o.state.cache.maxSize == client.cache.maxSize
    ensures o.queries == [] <==> client.cache.values != map[]
    ensures o.queries != [] ==> o.queries == [CallAsWritten(client)]
    ensures o.queries == [] ==> && o.result == Success(client.cache.values[client.cache.keys[0]])
                                && o.state.cache.values == client.cache.values
                                && o.state.cache.keys == client.cache.keys
                                && o.state.cache.recency ==
                                     Lru.Remove(client.cache.recency, client.cache.keys[0]) + [client.cache.keys[0]]
    ensures var reply := resolve(CallAsWritten(client));
            o.queries != [] && reply.Raised? ==>
              o.result == Failure(WrapResolution(reply.message)) && o.state == client
    ensures var reply := resolve(CallAsWritten(client));
            o.queries != [] && reply.Reply? && client.cache.maxSize >= 1 ==>
              && o.result == Success(LegacyCache.LegacyInfo(reply.ip, reply.port, reply.natType))
              && LegacyCache.GetCachedInfo(o.state.cache, reply.ip).0 == Some(o.result.value)
              && o.state.cache.keys == [reply.ip] && o.state.cache.recency == [reply.ip]
    ensures var reply := resolve(CallAsWritten(client));
            o.queries != [] && reply.Reply? && client.cache.maxSize < 1 ==>
              o.result == Failure(WrapResolution("value too large")) && o.state == client
  {
    if |client.cache.keys| > 0 then
      var first := client.cache.keys[0];
      assert first in client.cache.values;
      var (found, cache) := LegacyCache.GetCachedInfo(client.cache, first);
      Step(Success(found.value), client.(cache := cache), [])
    else
      assert client.cache.values.Keys == {};
      var call := CallAsWritten(client);
      match resolve(call)
      case Raised(message) => Step(Failure(WrapResolution(message)), client, [call])
      case Reply(natType, ip, port) =>
        match LegacyCache.CacheStunInfo(client.cache, ip, port, natType)
        case Failure(e) => Step(Failure(WrapResolution(e.message)), client, [call])
        case Success(cache) =>
          assert cache.keys == [ip] && cache.recency == [ip] by {
            assert Lru.MakeRoom(client.cache) == client.cache;
          }
          Step(Success(LegacyCache.LegacyInfo(ip, port, natType)), client.(cache := cache), [call])
  }

  /** `get_public_ip()`: the `ip` of a full resolution. */
  function PublicIp(client: LegacyClient, resolve: StunCall -> StunReply): (s: Step<string, LegacyClient>)
    requires Lru.Valid(client.cache)
    ensures var o := GetStunInfo(client, resolve);
            && s.state == o.state && s.queries == o.queries
            && (s.result.Success? <==> o.result.Success?)
            && (s.result.Success? ==> s.result.value == o.result.value.ip)
            && (s.result.Failure? ==> s.result.error == o.result.error)
  {
    var o := GetStunInfo(client, resolve);
    match o.result
    case Success(info) => Step(Success(info.ip), o.state, o.queries)
    case Failure(e) => Step(Failure(e), o.state, o.queries)
  }

  /** `get_public_port()`: the `port` of a full resolution. */
  function PublicPort(client: LegacyClient, resolve: StunCall -> StunReply): (s: Step<int, LegacyClient>)
    requires Lru.Valid(client.cache)
    ensures var o := GetStunInfo(client, resolve);
            && s.state == o.state && s.queries == o.queries
            && (s.result.Success? <==> o.result.Success?)
            && (s.result.Success? ==> s.result.value == o.result.value.port)
            && (s.result.Failure? ==> s.result.error == o.result.error)
  {
    var o := GetStunInfo(client, resolve);
    match o.result
    case Success(info) => Step(Success(info.port), o.state, o.queries)
    case Failure(e) => Step(Failure(e), o.state, o.queries)
  }

  /** `get_nat_type()`: the `nat_type` of a full resolution. */
  function NatType(client: LegacyClient, resolve: StunCall -> StunReply): (s: Step<string, LegacyClient>)
    requires Lru.Valid(client.cache)
    ensures var o := GetStunInfo(client, resolve);
            && s.state == o.state && s.queries == o.queries
            && (s.result.Success? <==> o.result.Success?)
            && (s.result.Success? ==> s.result.value == o.result.value.natType)
            && (s.result.Failure? ==> s.result.error == o.result.error)
  {
    var o := GetStunInfo(client, resolve);
    match o.result
    case Success(info) => Step(Success(info.natType), o.state, o.queries)
    case Failure(e) => Step(Failure(e), o.state, o.queries)
  }

  /** After any successful call, the next call makes no external call and
      returns the same record, whatever the oracle would now answer. */
  lemma SecondCallNoQuery(client: LegacyClient, r1: StunCall -> StunReply, r2: StunCall -> StunReply)
    requires Lru.Valid(client.cache)
    requires GetStunInfo(client, r1).result.Success?
    ensures var first := GetStunInfo(client, r1);
            var second := GetStunInfo(first.state, r2);
            second.queries == [] && second.result == first.result
  {
    var first := GetStunInfo(client, r1);
    assert first.state.cache.keys != [];
  }

  /** A sequence of `get_stun_info()` calls, one oracle per call: the number
      of external calls made and the client afterwards. */
  function Run(client: LegacyClient, resolvers: seq<StunCall -> StunReply>): (r: (nat, LegacyClient))
    requires Lru.Valid(client.cache)
    ensures Lru.Valid(r.1.cache)
    decreases |resolvers|
  {
    if resolvers == [] then (0, client)
    else
      var o := GetStunInfo(client, resolvers[0]);
      var rest := Run(o.state, resolvers[1..]);
      (|o.queries| + rest.0, rest.1)
  }

  /** Once the cache holds anything, no later call ever reaches the network
      again and the cached records never change. */
  lemma {:induction false} NonEmptyCacheNeverQueries(client: LegacyClient, resolvers: seq<StunCall -> StunReply>)
    requires Lru.Valid(client.cache) && client.cache.values != map[]
    ensures Run(client, resolvers).0 == 0
    ensures Run(client, resolvers).1.cache.values == client.cache.values
    decreases |resolvers|
  {
    if resolvers != [] {
      var o := GetStunInfo(client, resolvers[0]);
      NonEmptyCacheNeverQueries(o.state, resolvers[1..]);
    }
  }

  /** Starting from at most one entry, the client's cache never holds more
      than one entry, whatever its capacity: a write happens only into an
      empty cache. */
  lemma {:induction false} AtMostOneEntry(client: LegacyClient, resolvers: seq<StunCall -> StunReply>)
    requires Lru.Valid(client.cache) && |client.cache.values| <= 1
    ensures |Run(client, resolvers).1.cache.values| <= 1
    decreases |resolvers|
  {
    if resolvers != [] {
      var o := GetStunInfo(client, resolvers[0]);
      AtMostOneEntry(o.state, resolvers[1..]);
    }
  }
}

=== FILE: legacy_cache.dfy ===
/** The legacy resolver's cache (stun_ip_resolver/cache.py): an LRU map
    from IP address to `{ip, port, nat_type}`, 100 entries by default. */
module LegacyCache {

  import opened Common
  import Lru

  /** The legacy record `{ip, port, nat_type}`. */
  datatype LegacyInfo = LegacyInfo(ip: string, port: int, natType: string)

  type IpCache = Lru.Cache<string, LegacyInfo>

  const DefaultMaxSize: nat := 100

  /** `IPResolverCache(max_size)`: an empty map of that capacity. */
  function NewIpCache(maxSize: nat): (c: IpCache)
    ensures Lru.Valid(c) && c.maxSize == maxSize && c.values == map[] && c.keys == []
  {
    Lru.New(maxSize)
  }

  /** `get_cached_info(ip)`: the record stored under `ip`, or nothing; a
      found record becomes the most recently used. */
  function GetCachedInfo(c: IpCache, ip: string): (r: (Option<LegacyInfo>, IpCache))
    requires Lru.Valid(c)
    ensures Lru.Valid(r.1) && r.1.values == c.values && r.1.keys == c.keys && r.1.maxSize == c.maxSize
    ensures ip !in c.values ==> r.0 == None && r.1 == c
    ensures ip in c.values ==> r.0 == Some(c.values[ip])
    ensures ip in c.values ==> r.1.recency == Lru.Remove(c.recency, ip) + [ip]
  {
    Lru.Get(c, ip)
  }

  /** `cache_stun_info(ip, port, nat_type)`: `{ip, port, nat_type}` under
      key `ip`, read back unchanged by an immediate `get_cached_info(ip)`.
      A map of capacity zero refuses every item. */
  function CacheStunInfo(c: IpCache, ip: string, port: int, natType: string): (r: Result<IpCache>)
    requires Lru.Valid(c)
    ensures r.Success? <==> c.maxSize >= 1
    ensures r.Failure? ==> r.error == ValueError("value too large")
    ensures r.Success? ==> Lru.Valid(r.value) && r.value.maxSize == c.maxSize
    ensures r.Success? ==> GetCachedInfo(r.value, ip).0 == Some(LegacyInfo(ip, port, natType))
    ensures r.Success? ==> forall other :: other in r.value.values && other != ip ==>
                             other in c.values && r.value.values[other] == c.values[other]
    ensures r.Success? && ip in c.values ==> r.value.recency == Lru.Remove(c.recency, ip) + [ip]
    ensures r.Success? && ip !in c.values && |c.values| < c.maxSize ==> r.value.recency == c.recency + [ip]
    ensures r.Success? && ip !in c.values && |c.values| == c.maxSize ==> r.value.recency == c.recency[1..] + [ip]
    ensures r.Success? && ip !in c.values && |c.values| < c.maxSize ==>
              r.value.values == c.values[ip := LegacyInfo(ip, port, natType)] && r.value.keys == c.keys + [ip]
    ensures r.Success? && ip !in c.values && |c.values| == c.maxSize ==>
              && r.value.values == (c.values - {c.recency[0]})[ip := LegacyInfo(ip, port, natType)]
              && r.value.keys == Lru.Remove(c.keys, c.recency[0]) + [ip]
  {
    Lru.Put(c, ip, LegacyInfo(ip, port, natType))
  }

  /** `clear_cache()`: afterwards every lookup finds nothing. */
  method ClearCache(c: IpCache) returns (c': IpCache)
    requires Lru.Valid(c)
    ensures Lru.Valid(c') && c'.maxSize == c.maxSize && c'.keys == []
    ensures forall ip :: GetCachedInfo(c', ip).0 == None
  {
    c' := Lru.Clear(c);
  }

  /** Writing an IP again replaces its record rather than merging, and keeps
      every other IP's record where it was. */
  lemma RewriteReplaces(c: IpCache, ip: string, p1: int, n1: string, p2: int, n2: string, other: string)
    requires Lru.Valid(c) && c.maxSize >= 1 && other != ip
    ensures var c1 := CacheStunInfo(c, ip, p1, n1).value;
            var c2 := CacheStunInfo(c1, ip, p2, n2).value;
            && GetCachedInfo(c2, ip).0 == Some(LegacyInfo(ip, p2, n2))
            && GetCachedInfo(c2, other).0 == GetCachedInfo(c1, other).0
            && c2.keys == c1.keys
  {
  }

  /** One call on the cache: `get_cached_info`, `cache_stun_info` or
      `clear_cache`. */
  datatype Call = GetCall(ip: string) | CacheCall(ip: string, port: int, natType: string) | ClearCall

  /** The cache after one call; a write the map refuses (`ValueError`)
      leaves it as it was. */
  function Perform(c: IpCache, call: Call): (c': IpCache)
    requires Lru.Valid(c)
    ensures Lru.Valid(c') && c'.maxSize == c.maxSize
    ensures call.GetCall? ==> c'.values == c.values
    ensures call.ClearCall? ==> c'.values == map[]
  {
    match call
    case GetCall(ip) => GetCachedInfo(c, ip).1
    case CacheCall(ip, port, natType) =>
      (match CacheStunInfo(c, ip, port, natType) case Success(d) => d case Failure(_) => c)
    case ClearCall => Lru.Cleared(c)
  }

  function Replay(c: IpCache, calls: seq<Call>): (c': IpCache)
    requires Lru.Valid(c)
    ensures Lru.Valid(c') && c'.maxSize == c.maxSize
    decreases |calls|
  {
    if calls == [] then c else Replay(Perform(c, calls[0]), calls[1..])
  }

  /** Every record sits under the IP it names, as `cache_stun_info` writes it. */
  ghost predicate KeyedByIp(c: IpCache) {
    forall ip :: ip in c.values ==> c.values[ip].ip == ip
  }

  /** No sequence of lookups, writes and clears takes the map past its
      capacity. */
  lemma {:induction false} BoundedByMaxSize(c: IpCache, calls: seq<Call>)
    requires Lru.Valid(c)
    ensures |Replay(c, calls).values| <= c.maxSize
    decreases |calls|
  {
    if calls != [] {
      BoundedByMaxSize(Perform(c, calls[0]), calls[1..]);
    }
  }

  /** Lookups, writes and clears keep every record under its own IP. */
  lemma {:induction false} StaysKeyedByIp(c: IpCache, calls: seq<Call>)
    requires Lru.Valid(c) && KeyedByIp(c)
    ensures KeyedByIp(Replay(c, calls))
    decreases |calls|
  {
    if calls != [] {
      var d := Perform(c, calls[0]);
      assert KeyedByIp(d) by {
        match calls[0]
        case GetCall(_) =>
        case ClearCall =>
        case CacheCall(ip, port, natType) =>
          if c.maxSize >= 1 {
            forall x | x in d.values ensures d.values[x].ip == x {
              if x == ip {
                assert GetCachedInfo(d, ip).0 == Some(LegacyInfo(ip, port, natType));
              }
            }
          }
      }
      StaysKeyedByIp(d, calls[1..]);
    }
  }

  /** Capacity one: writing "a" then "b" evicts "a". */
  lemma CapacityOneScenario()
    ensures var c0 := NewIpCache(1);
            var c1 := CacheStunInfo(c0, "a", 5000, "Full Cone").value;
            var c2 := CacheStunInfo(c1, "b", 5001, "Symmetric").value;
            && GetCachedInfo(c2, "a").0 == None
            && GetCachedInfo(c2, "b").0 == Some(LegacyInfo("b", 5001, "Symmetric"))
  {
    var c0 := NewIpCache(1);
    var c1 := CacheStunInfo(c0, "a", 5000, "Full Cone").value;
    Lru.PutEvictsLeastRecentlyUsed(c1, "b", LegacyInfo("b", 5001, "Symmetric"));
  }
}

=== FILE: lru.dfy ===
/** A capacity-bounded map with least-recently-used eviction, as the legacy
    cache's `LRUCache(maxsize)` behaves. Two orders are kept: `keys` is the
    iteration order of `keys()` (first insertion, among the keys still
    present) and `recency` runs from least to most recently used. Every item
    has size 1. */
module Lru {

  import opened Common

  predicate Distinct<K(==)>(s: seq<K>) {
    forall i, j :: 0 <= i < j < |s| ==> s[i] != s[j]
  }

  lemma DistinctTail<K>(s: seq<K>)
    requires Distinct(s) && |s| > 0
    ensures Distinct(s[1..]) && s[0] !in s[1..]
  {
    forall x | x in s[1..] ensures x != s[0] {
      var j :| 0 <= j < |s[1..]| && s[1..][j] == x;
      assert s[j + 1] == x;
    }
  }

  /** The position of the first `k` in `s`. */
  function IndexOf<K(==)>(s: seq<K>, k: K): (i: nat)
    requires k in s
    ensures i < |s| && s[i] == k
    ensures forall j :: 0 <= j < i ==> s[j] != k
  {
    if s[0] == k then 0
    else
      var j := IndexOf(s[1..], k);
      assert forall m :: 1 <= m < j + 1 ==> s[m] == s[1..][m - 1];
      j + 1
  }

  lemma DistinctCons<K>(x: K, s: seq<K>)
    requires Distinct(s) && x !in s
    ensures Distinct([x] + s)
  {
    var r := [x] + s;
    forall i, j | 0 <= i < j < |r| ensures r[i] != r[j] {
      if i > 0 {
        assert r[i] == s[i - 1] && r[j] == s[j - 1];
      } else {
        assert r[j] in s;
      }
    }
  }

  /** Cutting `k` out of the tail of `s` cuts it out of `s`. */
  lemma ConsCut<K>(s: seq<K>, k: K, rest: seq<K>)
    requires |s| > 0 && s[0] != k && k in s[1..]
    requires rest == s[1..][..IndexOf(s[1..], k)] + s[1..][IndexOf(s[1..], k) + 1..]
    ensures [s[0]] + rest == s[..IndexOf(s, k)] + s[IndexOf(s, k) + 1..]
  {
    var t := s[1..];
    var q := IndexOf(t, k);
    var i := IndexOf(s, k);
    assert i == q + 1;
    var lhs := [s[0]] + rest;
    var rhs := s[..i] + s[i + 1..];
    assert |lhs| == |rhs|;
    forall m | 0 <= m < |lhs| ensures lhs[m] == rhs[m] {
      if m == 0 {
      } else if m <= q {
        assert lhs[m] == t[m - 1];
      } else {
        assert lhs[m] == t[m];
      }
    }
  }

  /** `r` is `s` with `k` taken out and the other elements kept in order. */
  ghost predicate RemovedFrom<K(!new)>(s: seq<K>, k: K, r: seq<K>) {
    && (forall x :: x in r <==> x in s && x != k)
    && |r| <= |s|
    && (k !in s ==> r == s)
    && (Distinct(s) ==> Distinct(r))
    && (Distinct(s) && k in s ==> |r| == |s| - 1)
    && (Distinct(s) && k in s ==> r == s[..IndexOf(s, k)] + s[IndexOf(s, k) + 1..])
  }

  lemma RemovedAtHead<K(!new)>(s: seq<K>, k: K, rest: seq<K>)
    requires |s| > 0 && s[0] == k && RemovedFrom(s[1..], k, rest)
    ensures RemovedFrom(s, k, rest)
  {
    assert s == [s[0]] + s[1..];
    if Distinct(s) {
      DistinctTail(s);
      assert rest == s[1..];
      assert IndexOf(s, k) == 0;
      assert s[..0] + s[1..] == s[1..];
    }
  }

  lemma RemovedAfterHead<K(!new)>(s: seq<K>, k: K, rest: seq<K>)
    requires |s| > 0 && s[0] != k && RemovedFrom(s[1..], k, rest)
    ensures RemovedFrom(s, k, [s[0]] + rest)
  {
    assert s == [s[0]] + s[1..];
    if Distinct(s) {
      DistinctTail(s);
      DistinctCons(s[0], rest);
      if k in s {
        ConsCut(s, k, rest);
      }
    }
  }

  /** `s` without `k`, the other elements in their order. */
  function Remove<K(==, !new)>(s: seq<K>, k: K): (r: seq<K>)
    ensures forall x :: x in r <==> x in s && x != k
    ensures |r| <= |s|
    ensures k !in s ==> r == s
    ensures Distinct(s) ==> Distinct(r)
    ensures Distinct(s) && k in s ==> |r| == |s| - 1
    ensures Distinct(s) && k in s ==> r == s[..IndexOf(s, k)] + s[IndexOf(s, k) + 1..]
  {
    if s == [] then []
    else
      var rest := Remove(s[1..], k);
      assert RemovedFrom(s[1..], k, rest);
      if s[0] == k then
        RemovedAtHead(s, k, rest);
        rest
      else
        RemovedAfterHead(s, k, rest);
        [s[0]] + rest
  }

  /** `s` with `k` moved to (or added at) the end. */
  function MoveToEnd<K(==, !new)>(s: seq<K>, k: K): (r: seq<K>)
    ensures |r| > 0 && r[|r| - 1] == k
    ensures forall x :: x in r <==> x in s || x == k
    ensures Distinct(s) ==> Distinct(r)
    ensures Distinct(s) && k in s ==> |r| == |s|
    ensures Distinct(s) && k in s ==> r == s[..IndexOf(s, k)] + s[IndexOf(s, k) + 1..] + [k]
  {
    var rest := Remove(s, k);
    var r := rest + [k];
    assert Distinct(s) ==> Distinct(r) by {
      if Distinct(s) {
        forall i, j | 0 <= i < j < |r| ensures r[i] != r[j] {
          if j == |r| - 1 {
            assert r[i] in rest;
          } else {
            assert r[i] == rest[i] && r[j] == rest[j];
          }
        }
      }
    }
    r
  }

  datatype Cache<K(==), V> = Cache(maxSize: nat, keys: seq<K>, recency: seq<K>, values: map<K, V>)

  /** Both orders list exactly the stored keys, once each, and there are
      never more than `maxSize` of them. */
  ghost predicate Valid<K(!new), V>(c: Cache<K, V>) {
    && Distinct(c.keys) && Distinct(c.recency)
    && (forall k :: k in c.keys <==> k in c.values)
    && (forall k :: k in c.recency <==> k in c.values)
    && |c.keys| == |c.values| && |c.recency| == |c.values|
    && |c.values| <= c.maxSize
  }

  function New<K(==, !new), V>(maxSize: nat): (c: Cache<K, V>)
    ensures Valid(c) && c.maxSize == maxSize && c.values == map[]
  {
    Cache(maxSize, [], [], map[])
  }

  /** `cache.get(k, None)`: the stored value, which becomes the most
      recently used; an absent key changes nothing. */
  function Get<K(==, !new), V>(c: Cache<K, V>, k: K): (r: (Option<V>, Cache<K, V>))
    requires Valid(c)
    ensures Valid(r.1)
    ensures r.0.Some? <==> k in c.values
    ensures r.0.Some? ==> r.0.value == c.values[k]
    ensures r.1.values == c.values && r.1.keys == c.keys && r.1.maxSize == c.maxSize
    ensures k in c.values ==> r.1.recency == Remove(c.recency, k) + [k]
    ensures k !in c.values ==> r.1 == c
  {
    if k in c.values then (Some(c.values[k]), c.(recency := MoveToEnd(c.recency, k)))
    else (None, c)
  }

  /** `popitem()`: drops the least recently used key. */
  function PopLru<K(==, !new), V>(c: Cache<K, V>): (c': Cache<K, V>)
    requires Valid(c) && |c.recency| > 0
    ensures Valid(c') && c'.maxSize == c.maxSize
    ensures c'.recency == c.recency[1..]
    ensures c'.keys == Remove(c.keys, c.recency[0])
    ensures c'.values.Keys == c.values.Keys - {c.recency[0]}
    ensures forall x :: x in c'.values ==> c'.values[x] == c.values[x]
  {
    var k := c.recency[0];
    DistinctTail(c.recency);
    var values := c.values - {k};
    assert values.Keys == c.values.Keys - {k};
    Cache(c.maxSize, Remove(c.keys, k), c.recency[1..], values)
  }

  /** `while currsize + 1 > maxsize: popitem()`, the room a new key needs. */
  function MakeRoom<K(==, !new), V>(c: Cache<K, V>): (c': Cache<K, V>)
    requires Valid(c) && c.maxSize >= 1
    ensures Valid(c') && c'.maxSize == c.maxSize && |c'.values| < c.maxSize
    ensures forall x :: x in c'.values ==> x in c.values && c'.values[x] == c.values[x]
    ensures |c.values| < c.maxSize ==> c' == c
    ensures |c.values| >= c.maxSize ==> c'.recency == c.recency[|c.values| + 1 - c.maxSize..]
    ensures |c.values| >= c.maxSize ==> |c'.values| == c.maxSize - 1
    decreases |c.recency|
  {
    if |c.values| + 1 > c.maxSize then
      var p := PopLru(c);
      assert |p.values| == |c.values| - 1 < c.maxSize;
      assert MakeRoom(p) == p;
      MakeRoom(p)
    else c
  }

  /** Overwriting a present key: same keys in the same iteration order, the
      key becomes the most recently used. */
  function Overwrite<K(==, !new), V>(c: Cache<K, V>, k: K, v: V): (c': Cache<K, V>)
    requires Valid(c) && k in c.values
    ensures Valid(c') && c'.maxSize == c.maxSize
    ensures c'.keys == c.keys && c'.values == c.values[k := v]
    ensures c'.values.Keys == c.values.Keys
    ensures c'.recency == Remove(c.recency, k) + [k]
  {
    c.(values := c.values[k := v], recency := MoveToEnd(c.recency, k))
  }

  /** Adding a new key to a map with room: it goes last in both orders. */
  function Append<K(==, !new), V>(c: Cache<K, V>, k: K, v: V): (c': Cache<K, V>)
    requires Valid(c) && k !in c.values && |c.values| < c.maxSize
    ensures Valid(c') && c'.maxSize == c.maxSize
    ensures c'.keys == c.keys + [k] && c'.values == c.values[k := v]
    ensures c'.recency == c.recency + [k]
  {
    var r := Cache(c.maxSize, c.keys + [k], c.recency + [k], c.values[k := v]);
    assert Distinct(r.keys) by {
      forall i, j | 0 <= i < j < |r.keys| ensures r.keys[i] != r.keys[j] {
        if j == |r.keys| - 1 { assert r.keys[i] in c.keys; }
      }
    }
    assert Distinct(r.recency) by {
      forall i, j | 0 <= i < j < |r.recency| ensures r.recency[i] != r.recency[j] {
        if j == |r.recency| - 1 { assert r.recency[i] in c.recency; }
      }
    }
    r
  }

  /** In a full map, making room for one key pops exactly the least
      recently used one. */
  lemma MakeRoomWhenFull<K(!new), V>(c: Cache<K, V>)
    requires Valid(c) && c.maxSize >= 1 && |c.values| == c.maxSize
    ensures MakeRoom(c) == PopLru(c)
    ensures MakeRoom(c).values == c.values - {c.recency[0]}
  {
    var p := PopLru(c);
    assert |p.values| < c.maxSize;
    assert MakeRoom(p) == p;
  }

  /** A new key into a map with room: nothing is evicted. */
  lemma AddWithRoom<K(!new), V>(c: Cache<K, V>, k: K, v: V)
    requires Valid(c) && k !in c.values && |c.values| < c.maxSize
    ensures var n := Append(MakeRoom(c), k, v);
      n.recency == c.recency + [k] && n.values == c.values[k := v] && n.keys == c.keys + [k]
  {
    assert MakeRoom(c) == c;
  }

  /** A new key into a full map: the least recently used key makes way. */
  lemma AddWhenFull<K(!new), V>(c: Cache<K, V>, k: K, v: V)
    requires Valid(c) && c.maxSize >= 1 && k !in c.values && |c.values| == c.maxSize
    ensures var n := Append(MakeRoom(c), k, v);
      && n.recency == c.recency[1..] + [k]
      && n.values == (c.values - {c.recency[0]})[k := v]
      && n.keys == Remove(c.keys, c.recency[0]) + [k]
  {
    MakeRoomWhenFull(c);
    var m := MakeRoom(c);
    assert m.recency == c.recency[1..] && m.keys == Remove(c.keys, c.recency[0]);
  }

  /** A new key: evict least recently used keys until there is room, then
      append it last in both orders. */
  function Insert<K(==, !new), V>(c: Cache<K, V>, k: K, v: V): (c': Cache<K, V>)
    requires Valid(c) && c.maxSize >= 1 && k !in c.values
    ensures Valid(c') && c'.maxSize == c.maxSize
    ensures k in c'.values && c'.values[k] == v && c'.recency[|c'.recency| - 1] == k
    ensures forall x :: x in c'.values && x != k ==> x in c.values && c'.values[x] == c.values[x]
    ensures |c.values| < c.maxSize ==>
              c'.recency == c.recency + [k] && c'.values == c.values[k := v] && c'.keys == c.keys + [k]
    ensures |c.values| == c.maxSize ==>
              && c'.recency == c.recency[1..] + [k]
              && c'.values == (c.values - {c.recency[0]})[k := v]
              && c'.keys == Remove(c.keys, c.recency[0]) + [k]
  {
    if |c.values| < c.maxSize then
      AddWithRoom(c, k, v);
      Append(MakeRoom(c), k, v)
    else
      AddWhenFull(c, k, v);
      Append(MakeRoom(c), k, v)
  }

  /** `cache[k] = v`. An item never fits a map of capacity below one
      (`ValueError`); a present key is overwritten in place; a new key first
      evicts least recently used keys until there is room, and goes last in
      both orders. Either way `k` becomes the most recently used. */
  function Put<K(==, !new), V>(c: Cache<K, V>, k: K, v: V): (r: Result<Cache<K, V>>)
    requires Valid(c)
    ensures r.Failure? <==> c.maxSize < 1
    ensures r.Failure? ==> r.error == ValueError("value too large")
    ensures r.Success? ==> Valid(r.value) && r.value.maxSize == c.maxSize
    ensures r.Success? ==> k in r.value.values && r.value.values[k] == v
    ensures r.Success? ==> r.value.recency[|r.value.recency| - 1] == k
    ensures r.Success? ==> forall x :: x in r.value.values && x != k ==> x in c.values && r.value.values[x] == c.values[x]
    ensures r.Success? && k in c.values ==> r.value.keys == c.keys && r.value.values.Keys == c.values.Keys
    ensures r.Success? && k in c.values ==> r.value.recency == Remove(c.recency, k) + [k]
    ensures r.Success? && k !in c.values && |c.values| < c.maxSize ==> r.value.recency == c.recency + [k]
    ensures r.Success? && k !in c.values && |c.values| == c.maxSize ==> r.value.recency == c.recency[1..] + [k]
    ensures r.Success? && k !in c.values && |c.values| < c.maxSize ==>
              r.value.values == c.values[k := v] && r.value.keys == c.keys + [k]
    ensures r.Success? && k !in c.values && |c.values| == c.maxSize ==>
              && r.value.values == (c.values - {c.recency[0]})[k := v]
              && r.value.keys == Remove(c.keys, c.recency[0]) + [k]
  {
    if c.maxSize < 1 then Failure(ValueError("value too large"))
    else if k in c.values then Success(Overwrite(c, k, v))
    else Success(Insert(c, k, v))
  }

  /** The map as `clear()` leaves it. */
  function Cleared<K(==, !new), V>(c: Cache<K, V>): (c': Cache<K, V>)
    ensures Valid(c') && c'.maxSize == c.maxSize
    ensures forall k :: Get(c', k).0.None?
  {
    New(c.maxSize)
  }

  /** `clear()`: pops least recently used items until none is left. */
  method Clear<K(==, !new), V>(c: Cache<K, V>) returns (c': Cache<K, V>)
    requires Valid(c)
    ensures c' == Cleared(c)
  {
    c' := c;
    while |c'.recency| > 0
      invariant Valid(c') && c'.maxSize == c.maxSize
      decreases |c'.recency|
    {
      c' := PopLru(c');
    }
    assert c'.values.Keys == {};
  }

  /** An operation on the map, for replaying sequences of them. */
  datatype Op<K, V> = GetOp(key: K) | PutOp(key: K, value: V) | ClearOp

  function Apply<K(==, !new), V>(c: Cache<K, V>, op: Op<K, V>): (c': Cache<K, V>)
    requires Valid(c)
    ensures Valid(c') && c'.maxSize == c.maxSize
  {
    match op
    case GetOp(k) => Get(c, k).1
    case PutOp(k, v) => (match Put(c, k, v) case Success(d) => d case Failure(_) => c)
    case ClearOp => Cleared(c)
  }

  function Replay<K(==, !new), V>(c: Cache<K, V>, ops: seq<Op<K, V>>): Cache<K, V>
    requires Valid(c)
    decreases |ops|
  {
    if ops == [] then c else Replay(Apply(c, ops[0]), ops[1..])
  }

  /** Whatever gets, puts and clears are applied, the map never holds more
      than `maxSize` entries. */
  lemma {:induction false} NeverExceedsMaxSize<K(!new), V>(c: Cache<K, V>, ops: seq<Op<K, V>>)
    requires Valid(c)
    ensures |Replay(c, ops).values| <= c.maxSize
    decreases |ops|
  {
    if ops != [] {
      NeverExceedsMaxSize(Apply(c, ops[0]), ops[1..]);
    }
  }

  /** A put followed by a get of the same key returns the value put. */
  lemma PutThenGet<K(!new), V>(c: Cache<K, V>, k: K, v: V)
    requires Valid(c) && c.maxSize >= 1
    ensures Put(c, k, v).Success? && Get(Put(c, k, v).value, k).0 == Some(v)
  {
  }

  /** On a full map a new key evicts exactly the least recently used key and
      keeps every other entry. */
  lemma PutEvictsLeastRecentlyUsed<K(!new), V>(c: Cache<K, V>, k: K, v: V)
    requires Valid(c) && c.maxSize >= 1 && |c.values| == c.maxSize && k !in c.values
    ensures var r := Put(c, k, v);
            && r.Success?
            && c.recency[0] !in r.value.values
            && r.value.values.Keys == c.values.Keys - {c.recency[0]} + {k}
            && forall x :: x in c.values && x != c.recency[0] ==> r.value.values[x] == c.values[x]
  {
    var p := PopLru(c);
    assert MakeRoom(p) == p;
    assert MakeRoom(c) == p;
  }

  /** A key just read is not the next to be evicted while another key is
      present. */
  lemma GetProtectsFromEviction<K(!new), V>(c: Cache<K, V>, k: K, k2: K, v: V)
    requires Valid(c) && c.maxSize >= 2 && |c.values| == c.maxSize && k in c.values && k2 !in c.values
    ensures var c1 := Get(c, k).1;
            Put(c1, k2, v).Success? && k in Put(c1, k2, v).value.values
  {
    var c1 := Get(c, k).1;
    assert c1.recency[0] != k by {
      assert c1.recency[|c1.recency| - 1] == k;
      assert Distinct(c1.recency) && |c1.recency| >= 2;
    }
    PutEvictsLeastRecentlyUsed(c1, k2, v);
  }
}

=== FILE: stun.dfy ===
/** The external discovery library as both clients see it: one blocking
    function `get_ip_info(source_ip="0.0.0.0", source_port=54320,
    stun_host=None, stun_port=3478)` returning `(nat_type, ip, port)` or
    raising. Its parameter order is the one the four-argument call in
    conexia/core.py:59 relies on. The protocol exchange itself is an oracle. */
module Stun {

  /** A Python argument value as far as the call is concerned. */
  datatype Arg = Text(text: string) | Num(num: int) | NoneArg

  /** The library's four parameters after binding. */
  datatype StunCall = StunCall(sourceIp: Arg, sourcePort: Arg, stunHost: Arg, stunPort: Arg)

  /** What the oracle answers: the `(nat_type, ip, port)` triple or an
      exception with its message. */
  datatype StunReply = Reply(natType: string, ip: string, port: int) | Raised(message: string)

  /** The parameter defaults, in declaration order. */
  const LibraryDefaults: seq<Arg> := [Text("0.0.0.0"), Num(54320), NoneArg, Num(3478)]

  function Params(c: StunCall): seq<Arg> {
    [c.sourceIp, c.sourcePort, c.stunHost, c.stunPort]
  }

  /** Python's positional binding: the i-th argument fills the i-th
      parameter, the rest keep their defaults. */
  function Bind(args: seq<Arg>): (c: StunCall)
    requires |args| <= 4
    ensures |Params(c)| == 4
    ensures forall i :: 0 <= i < 4 ==>
              Params(c)[i] == (if i < |args| then args[i] else LibraryDefaults[i])
  {
    var full := args + LibraryDefaults[|args|..];
    StunCall(full[0], full[1], full[2], full[3])
  }

  /** The four-argument call that names every parameter's place: bind to
      `0.0.0.0:54320` and query `server` on `port`. */
  function ServerCall(server: string, port: int): (c: StunCall)
    ensures c.stunHost == Text(server) && c.stunPort == Num(port)
    ensures c.sourceIp == Text("0.0.0.0") && c.sourcePort == Num(54320)
  {
    Bind([Text("0.0.0.0"), Num(54320), Text(server), Num(port)])
  }
}

=== FILE: ttl_cache.dfy ===
/** The conexia cache contract, common to its four backends (memory, file,
    sqlite, redis): one map from identity to the stored record together with
    the clock reading at which it was stored, and a time-to-live after which
    a record reads as absent. conexia/cache.py is not part of this model; the
    behaviour below is the one tests/test_cache.py and tests/test_core.py
    pin down. */
module TtlCache {

  import opened Common

  datatype BackendKind = Memory | File | Sqlite | Redis

  /** The `cache_backend` names the facade accepts. */
  function BackendName(k: BackendKind): string {
    match k
    case Memory => "memory"
    case File => "file"
    case Sqlite => "sqlite"
    case Redis => "redis"
  }

  /** Selecting a backend by name; any other name is a configuration error. */
  function ParseBackend(name: string): (r: Result<BackendKind>)
    ensures r.Success? <==> name in {"memory", "file", "sqlite", "redis"}
    ensures r.Success? ==> BackendName(r.value) == name
    ensures r.Failure? ==> r.error.ConfigurationError?
  {
    if name == "memory" then Success(Memory)
    else if name == "file" then Success(File)
    else if name == "sqlite" then Success(Sqlite)
    else if name == "redis" then Success(Redis)
    else Failure(ConfigurationError("Unsupported cache backend: " + name))
  }

  /** A stored record and the clock reading at which it was stored. */
  datatype Entry = Entry(info: StunInfo, storedAt: int)

  datatype Cache = Cache(kind: BackendKind, ttl: int, entries: map<string, Entry>)

  function Empty(kind: BackendKind, ttl: int): (c: Cache)
    ensures c.kind == kind && c.ttl == ttl
    ensures forall key, now :: GetCachedInfo(c, key, now).None?
  {
    Cache(kind, ttl, map[])
  }

  /** A record is fresh while less than `ttl` seconds have passed since it
      was stored. */
  predicate IsFresh(c: Cache, e: Entry, now: int) {
    now - e.storedAt < c.ttl
  }

  /** The backend holds at least one key, fresh or stale (`_get_cached_ips`
      returned a non-empty list). */
  function HasAnyKeys(c: Cache): (r: bool)
    ensures r <==> exists key :: key in c.entries
    ensures !r ==> forall key, now :: GetCachedInfo(c, key, now).None?
  {
    c.entries != map[]
  }

  /** `get_cached_info(key)`: the stored record if it is still fresh,
      otherwise nothing; a lookup never changes what later lookups see. */
  function GetCachedInfo(c: Cache, key: string, now: int): (r: Option<StunInfo>)
    ensures r.Some? <==> key in c.entries && IsFresh(c, c.entries[key], now)
    ensures r.Some? ==> r.value == c.entries[key].info
  {
    if key in c.entries && IsFresh(c, c.entries[key], now) then Some(c.entries[key].info) else None
  }

  /** `cache_stun_info(user_id, ip, port, nat_type, timestamp)` at clock
      reading `now`: the record `{user_id, data, timestamp}` replaces
      whatever `user_id` held. */
  function CacheStunInfo(c: Cache, userId: string, ip: string, port: int, natType: string,
                         timestamp: int, now: int): (c': Cache)
    ensures c'.kind == c.kind && c'.ttl == c.ttl
    ensures c'.entries.Keys == c.entries.Keys + {userId}
    ensures c'.entries[userId] == Entry(StunInfo(userId, StunData(ip, port, natType), timestamp), now)
    ensures forall k :: k in c.entries && k != userId ==> c'.entries[k] == c.entries[k]
  {
    c.(entries := c.entries[userId := Entry(StunInfo(userId, StunData(ip, port, natType), timestamp), now)])
  }

  /** `clear_cache(key)`: removes the key, keeps every other one. */
  function ClearCache(c: Cache, key: string): (c': Cache)
    ensures c'.kind == c.kind && c'.ttl == c.ttl
    ensures c'.entries.Keys == c.entries.Keys - {key}
    ensures forall k :: k in c'.entries ==> c'.entries[k] == c.entries[k]
  {
    c.(entries := c.entries - {key})
  }

  /** Every record sits under its own `user_id`; the writes below keep this. */
  predicate KeyedByUser(c: Cache) {
    forall k :: k in c.entries ==> c.entries[k].info.userId == k
  }

  lemma WritesKeepKeyedByUser(c: Cache, userId: string, ip: string, port: int, natType: string,
                              timestamp: int, now: int, key: string)
    requires KeyedByUser(c)
    ensures KeyedByUser(CacheStunInfo(c, userId, ip, port, natType, timestamp, now))
    ensures KeyedByUser(ClearCache(c, key))
  {
  }

  /** Round trip: a record read back before its time-to-live has elapsed is
      exactly the one written, `data.ip` included. */
  lemma RoundTrip(c: Cache, userId: string, ip: string, port: int, natType: string,
                  timestamp: int, stored: int, now: int)
    requires stored <= now < stored + c.ttl
    ensures GetCachedInfo(CacheStunInfo(c, userId, ip, port, natType, timestamp, stored), userId, now)
            == Some(StunInfo(userId, StunData(ip, port, natType), timestamp))
  {
  }

  /** Freshness counts from the moment of storing, not from the
      caller-supplied timestamp: an immediate read succeeds for any
      timestamp whenever the time-to-live is positive. */
  lemma FreshnessIgnoresTimestamp(c: Cache, userId: string, ip: string, port: int, natType: string,
                                  t1: int, t2: int, now: int)
    requires c.ttl > 0
    ensures var r1 := GetCachedInfo(CacheStunInfo(c, userId, ip, port, natType, t1, now), userId, now);
            var r2 := GetCachedInfo(CacheStunInfo(c, userId, ip, port, natType, t2, now), userId, now);
            r1.Some? && r2.Some? && r1.value.data == r2.value.data
  {
  }

  /** Expiry: once `ttl` seconds have passed since storing, the record reads
      as absent. */
  lemma Expiry(c: Cache, userId: string, ip: string, port: int, natType: string,
               timestamp: int, stored: int, now: int)
    requires now >= stored + c.ttl
    ensures GetCachedInfo(CacheStunInfo(c, userId, ip, port, natType, timestamp, stored), userId, now).None?
  {
  }

  /** After `clear_cache(key)` the key reads as absent at every time, and
      every other key reads as before. */
  lemma ClearRemoves(c: Cache, key: string, other: string, now: int)
    requires other != key
    ensures GetCachedInfo(ClearCache(c, key), key, now).None?
    ensures GetCachedInfo(ClearCache(c, key), other, now) == GetCachedInfo(c, other, now)
  {
  }

  /** Writing one identity replaces its record (no merge with the old one)
      and leaves every other identity's reads unchanged. */
  lemma WriteReplacesOnlyItsKey(c: Cache, userId: string, ip: string, port: int, natType: string,
                                timestamp: int, stored: int, other: string, now: int)
    requires other != userId
    ensures var c' := CacheStunInfo(c, userId, ip, port, natType, timestamp, stored);
            GetCachedInfo(c', other, now) == GetCachedInfo(c, other, now)
    ensures var c' := CacheStunInfo(c, userId, ip, port, natType, timestamp, stored);
            var c'' := CacheStunInfo(c', userId, ip, port, natType, timestamp, stored);
            c'' == c'
  {
    var c' := CacheStunInfo(c, userId, ip, port, natType, timestamp, stored);
    assert c'.entries[userId := c'.entries[userId]] == c'.entries;
  }

  /** The scenario of the backend tests: ttl 2, write at 0, a read at 1
      returns the record, a read at 3 finds nothing. */
  lemma TwoSecondScenario(kind: BackendKind)
    ensures var c := CacheStunInfo(Empty(kind, 2), "user123", "192.168.1.1", 5000, "Full Cone", 0, 0);
            && GetCachedInfo(c, "user123", 1).Some?
            && GetCachedInfo(c, "user123", 1).value.data.ip == "192.168.1.1"
            && GetCachedInfo(c, "user123", 3).None?
  {
  }
}
